=== FILE: README.md ===
# Formula 1 telemetry analysis — a Dafny model of its computations

`f1_telemetry_analysis.py` is mostly chart code. It loads sessions through
fastf1 and draws them with matplotlib. Inside the chart functions sit five
small computations, and this project models them as pure Dafny functions and
methods over plain sequences:

- **Minisector dominance** (`compare_fastest_lap_visualization_on_map`).
  Both drivers' fastest-lap telemetry is merged. The lap is cut into 25
  minisectors of length `max distance / 25`. Every sample is labelled
  `floor(distance / length) + 1`. In each minisector the driver with the
  larger mean speed wins. Every sample is joined with its minisector's
  winner, coded 1 or 2, and the rows are ordered by distance
  (`minisectors.dfy`).
- **Positions gained** (`get_gained_positions_on_first_lap[_wall]`,
  `get_gained_positions_in_full_race[_wall]`). The gain is the grid slot
  minus the position after lap 1 or at the finish. Pit-lane starters
  (grid 0) are skipped. Drivers are ranked by ascending gain with a stable
  sort (`gained_positions.dfy`).
- **0-to-X launch time** (`get_0_x_times[_wall]`). Lap 1 telemetry is cut
  by time: a sample is kept when its time is not later than that of the
  first sample reaching the target speed and its speed is non-negative.
  The crossing time is linearly interpolated between the last two kept
  samples. Drivers are ranked by that
  time and get their gap to the quickest (`launch_times.dfy`).
- **Qualifying gap to pole** (`quali_results_concrete[_wall]`,
  `quali_results`). Fastest laps are ordered by lap time. Each gets its delta
  to the pole time. Laps without a team, and laps 5 s or more off pole, are
  dropped (`qualifying.dfy`).
- **Tyre-strategy bars** (`tyre_strategies[_wall]`). Each stint's bar
  starts where the driver's previous stints end (`tyre_strategies.dfy`).

Shared pieces:

- `sorting.dfy` holds one stable insertion sort on a real-valued key, used
  by all four rankings.
- `seqs.dfy` holds an order-preserving filter, an elementwise map, and
  lemmas about them (concatenation, the last kept element, and that
  mapping preserves permutations).
- `results.dfy` holds the `Result`/`Option` types. Each `Failure` names an
  exception the Python code would raise.

Distances, speeds and times are exact `real`s; positions and lap counts are
`int`/`nat`.

The `_wall` variants and `quali_results` run the same computation as the
function cited in the table. The matching lines are:

- gained positions: 308–322 and 417–430;
- launch times: 566–590;
- qualifying: 954–960 and 1000–1006;
- tyre bars: 839–852.

## Model

| member | source | states |
|---|---|---|
| Minisectors.Merge | f1_telemetry_analysis.py:1041-1045 | the merged telemetry is driver 1's samples, tagged with driver 1, followed by driver 2's, tagged with driver 2 |
| Minisectors.MaxDistance | f1_telemetry_analysis.py:1050 | `total_distance` is at least every merged sample's distance and equals one of them |
| Minisectors.Label | f1_telemetry_analysis.py:1062-1066 | the label `m` of a distance satisfies `(m−1)·L ≤ distance < m·L`, i.e. it is the 1-based index of the slice of length L the distance falls in |
| Minisectors.LabelRange | f1_telemetry_analysis.py:1053-1066 | with length `total/25`, a label is in 1..25 for a distance in [0, total), and is 26 exactly when the distance equals total (no clamp) |
| Minisectors.LabelMonotone | f1_telemetry_analysis.py:1062-1066 | a larger distance never gets a smaller minisector label |
| Minisectors.MinisectorStarts | f1_telemetry_analysis.py:1056-1060 | the start list has 25 entries, begins at 0 and is evenly spaced by L. For a positive total it is strictly increasing, and its last entry plus L is the total |
| Minisectors.MeanSpeedWithin | f1_telemetry_analysis.py:1068 | a driver's mean speed in a minisector lies between the slowest and the fastest of that driver's speeds there |
| Minisectors.Winner | f1_telemetry_analysis.py:1068-1072 | a minisector has a winner iff some sample of either driver carries its label. The winner is one of the two drivers and has a sample there. Its mean speed is at least that of every driver present. On a tie in mean speed, no present driver's name sorts before the winner's |
| Minisectors.LexLessTotal | f1_telemetry_analysis.py:1068-1072 | the name order used for the tie-break relates any two distinct names, so a tie always resolves to a single driver |
| Minisectors.Join | f1_telemetry_analysis.py:1074 | every row the inner join produces is a labelled sample tagged with its minisector's winner and that winner's code |
| Minisectors.JoinKeepsEveryRow | f1_telemetry_analysis.py:1074 | the inner join with the winners table drops no sample, and the i-th joined row carries the i-th sample's data |
| Minisectors.PaintByDistance | f1_telemetry_analysis.py:1074-1076 | the joined rows are ordered by distance, and with the winner columns removed they are a permutation of the labelled samples. Each row is tagged with its own minisector's winner and that winner's code |
| Minisectors.Dominance | f1_telemetry_analysis.py:1045-1079 | the whole computation fails iff every sample is at distance 0; it fails on the empty max iff there are no samples. Otherwise its rows are a permutation of the merged, labelled samples, sorted by distance, with labels non-decreasing, each tagged with its minisector's winner |
| Minisectors.LabelsFollowDistance | f1_telemetry_analysis.py:1064-1076 | along rows ordered by distance the minisector labels never decrease |
| Minisectors.Code | f1_telemetry_analysis.py:1078-1079 | the code is 1 or 2, and it is 2 exactly when the minisector's winner is driver 2 |
| Minisectors.CodeIdentifiesWinner | f1_telemetry_analysis.py:1078-1079 | for distinct drivers the code is 1 iff driver 1 won the minisector and 2 iff driver 2 did |
| Sorting.SortBy | f1_telemetry_analysis.py:267 | the ranking is a permutation of its input, ordered by non-decreasing key |
| Sorting.SortByStable | f1_telemetry_analysis.py:267 | entries with equal keys keep their input order, as `sorted` is stable |
| GainedPositions.Collect | f1_telemetry_analysis.py:253-264 | one entry per driver whose grid slot is not 0, in session order, holding `grid − position` |
| GainedPositions.GainedPositions | f1_telemetry_analysis.py:253-267 | the ranking is sorted ascending by gain, is a permutation of the collected gains, and holds exactly the gains of the non-pit-lane starters |
| GainedPositions.GainedOnFirstLap | f1_telemetry_analysis.py:253-267 | the first-lap ranking is sorted by gain, is a permutation of the collected first-lap gains (one per non-pit-lane starter), and holds exactly `grid − position after lap 1` for them |
| GainedPositions.GainedInFullRace | f1_telemetry_analysis.py:364-377 | the full-race ranking is sorted by gain, is a permutation of the collected full-race gains (one per non-pit-lane starter), and holds exactly `grid − finish position` for them |
| GainedPositions.PitLaneStartersExcluded | f1_telemetry_analysis.py:253-264 | with distinct driver numbers, a driver with grid slot 0 never appears in the ranking |
| GainedPositions.TiesKeepSessionOrder | f1_telemetry_analysis.py:267 | drivers with equal gains stay in session order |
| LaunchTimes.FirstAtOrAbove | f1_telemetry_analysis.py:514-516 | finds the first sample at or above the target speed; none exists iff every sample is below it |
| LaunchTimes.Interpolate | f1_telemetry_analysis.py:521-524 | the result is the time at which the straight line through the two (speed, time) samples reaches the target speed |
| LaunchTimes.InterpolationBracket | f1_telemetry_analysis.py:521-524 | if `v_prev < X ≤ v_last` and `t_prev ≤ t_last`, the interpolated time lies in `[t_prev, t_last]`. It equals `t_last` when `v_last = X`, and only then if `t_prev < t_last` |
| LaunchTimes.FromKept | f1_telemetry_analysis.py:518-524 | interpolation succeeds iff at least two samples were kept, some sample is below the target, and the last two kept speeds differ |
| LaunchTimes.CrossingTime | f1_telemetry_analysis.py:514-525 | a lap fails with "target never reached" iff every sample is below the target speed |
| LaunchTimes.CrossingSucceeds | f1_telemetry_analysis.py:514-524 | when time runs forward and the target is non-negative, the launch time exists iff the target is reached and some earlier sample has a non-negative speed |
| LaunchTimes.CrossingBracketed | f1_telemetry_analysis.py:514-525 | when time runs forward, the launch time is the interpolation between the last non-negative sample before the first sample at or above the target and that sample. It lies between their times, and equals the latter's time iff that sample is exactly at the target |
| LaunchTimes.Times | f1_telemetry_analysis.py:509-525 | one launch time per driver in session order, each the interpolated crossing time of that driver's lap; it exists iff every driver's crossing exists |
| LaunchTimes.Quickest | f1_telemetry_analysis.py:536 | the best time is at most every driver's launch time and is one of them |
| LaunchTimes.RankByTime | f1_telemetry_analysis.py:526-538 | one gap per driver; the first gap is 0; gaps are non-negative and non-decreasing; the gaps are a permutation of the drivers' times minus the quickest time, one per driver |
| LaunchTimes.LaunchGaps | f1_telemetry_analysis.py:508-538 | the ranking exists iff there is a driver and every driver's launch time exists. With no drivers it fails on the empty list |
| LaunchTimes.TiesKeepSessionOrder | f1_telemetry_analysis.py:526-538 | in the ranking, the drivers sharing a launch time appear in session order |
| Qualifying.PoleTime | f1_telemetry_analysis.py:914 | the pole time is at most every fastest lap's time and is one of them |
| Qualifying.Plotted | f1_telemetry_analysis.py:915-919 | a row is drawn iff it comes from a lap that has a team and is under 5 s off pole; its delta is lap time minus pole time |
| Qualifying.PlottedFilters | f1_telemetry_analysis.py:915-919 | the drawn rows are one row per drawn lap, in the order of the laps |
| Qualifying.PlottedSorted | f1_telemetry_analysis.py:913-919 | filtering keeps relative order, so rows from laps ordered by time are ordered by delta |
| Qualifying.PlottedPermutes | f1_telemetry_analysis.py:913-919 | reordering the laps only reorders the drawn rows |
| Qualifying.QualifyingGaps | f1_telemetry_analysis.py:913-919 | fails iff there are no laps. The drawn deltas are sorted, each lies in [0, 5), and they are a permutation of the rows of the laps that have a team and are under 5 s off pole, one per such lap |
| Qualifying.PoleLapDrawn | f1_telemetry_analysis.py:914-919 | a pole lap with a team is always drawn, first, with delta 0 |
| TyreStrategies.TotalLaps | f1_telemetry_analysis.py:798-811 | the laps covered by a driver's stints are at least the length of each stint |
| TyreStrategies.TotalLapsAppend | f1_telemetry_analysis.py:798-811 | the laps of two runs of stints add up, as `previous_stint_end` accumulates |
| TyreStrategies.StintBars | f1_telemetry_analysis.py:798-811 | one bar per stint, as wide as the stint; each bar starts at the sum of the driver's earlier stint lengths |
| TyreStrategies.BarsAreContiguous | f1_telemetry_analysis.py:798-811 | consecutive bars touch, the first starts at 0 and the last ends at the driver's total number of laps |
| TyreStrategies.TyreStrategy | f1_telemetry_analysis.py:795-811 | for each driver, the bars lay out exactly that driver's rows of the stint table |

Behaviour of the code worth knowing:

- Minisector labels are 1-based and not clamped, so in exact arithmetic
  the sample at the maximum distance gets its own minisector 26.
- The number of minisectors is a constant 25.
- A tie in mean speed goes to the driver whose name sorts first: `groupby`
  sorts the driver keys and `idxmax` returns the first maximum.
- The telemetry is not checked before use. Empty telemetry for both
  drivers raises in `max`, and all-zero distances make the label
  computation fail on a zero minisector length. Samples out of distance order are simply sorted by
  the final `sort_values`.

## Left out

- Session loading and the selection of laps and telemetry are fastf1 calls (`get_session`, `load`, `pick_driver`, `pick_fastest`, `get_telemetry`, `add_distance`). Their outputs are the model's input sequences. Distances are assumed non-negative, as `add_distance` produces them.
- Distance resampling and the time-delta trace are done by `fastf1.utils.delta_time`. That is library code with nothing of this repository to model.
- Rendering is left out: matplotlib, seaborn and mplcyberpunk, colours, colormaps, titles and axes. File output (`to_csv`, `savefig`) is left out too.
- RankByTime: gaps are exact real differences. The source rounds the best time and each gap to 3 decimals (lines 536–538), and that rounding is not modelled.
- Minisectors.LabelRange: the label uses exact real floor division. Python's float `//` can land one minisector lower or higher at a boundary, because the float length and distances are rounded.
- Minisectors.Winner: speeds are reals, so NaN speeds are not modelled. pandas `mean` would skip them.
- CrossingTime: a zero speed difference between the two bracketing samples is modelled as a failure. pandas would produce NaT or raise an overflow error there. The case cannot arise when time runs forward (CrossingSucceeds).
- Qualifying.PoleTime: the pole is the smallest lap time. `pick_fastest` also filters on `IsPersonalBest`, and a driver's fastest lap is normally a personal best. NaT lap times are not modelled.
- The `quali_results` loop over the 2023 event schedule is I/O around the same computation and is left out.
- The tyre stint table (the `groupby(...).count()` of laps per driver, stint and compound) is a pandas aggregation. The model takes the grouped table, in its group order, as input.
- The `gaining_position_sum` bookkeeping in the gained-positions functions is never read and is left out. So is the branch where the result tables are empty: there `gained_positions1` is stale or undefined.
- GainedPositions.GainedOnFirstLap: positions are integers, so a missing lap-1 `Position` (NaN, as fastf1 leaves it for a driver who did not complete lap 1) is not modelled; there `int(...)` at line 256 raises and the whole chart fails. The same holds for a missing finish position at line 367.
- Driver identifiers are assumed distinct, as `session.drivers` lists each driver once. With duplicates, the Python dictionaries would overwrite entries; the model would keep both.
- pandas `sort_values` (quicksort) does not promise an order among equal keys. The model's stable order is one admissible outcome. For those sorts (the distance sort of the dominance rows and the lap-time sort of the qualifying laps) the contracts claim only the order and that the result is a permutation.
- Team ordering by median lap time, and the other chart functions of the file, are outside the modelled computations.

=== FILE: gained_positions.dfy ===
/** Positions gained in a race (`get_gained_positions_on_first_lap[_wall]`,
    `get_gained_positions_in_full_race[_wall]`).

    For every driver of the session that did not start from the pit lane
    (grid slot 0), the gain is the grid slot minus the position after the
    first lap or at the finish; the drivers are then ranked by ascending gain
    with Python's stable `sorted`. */
module GainedPositions {
  import opened Seqs
  import opened Sorting

  /** One row of the session results: grid slot, position after lap 1 and
      classified finish position, as integers. */
  datatype Classification = Classification(driver: string, grid: int, afterFirstLap: int, finish: int)

  /** Which position the grid slot is compared with. */
  datatype Basis = FirstLap | FullRace

  datatype Gain = Gain(driver: string, gained: int)

  function GainOf(c: Classification, basis: Basis): int
  {
    c.grid - (match basis case FirstLap => c.afterFirstLap case FullRace => c.finish)
  }

  /** The driver took the start from a grid slot, not from the pit lane. */
  predicate Started(c: Classification)
  {
    c.grid != 0
  }

  /** The `gained_positions` dictionary in insertion (session) order:
      pit-lane starters are skipped, every other driver has one entry. */
  function Collect(results: seq<Classification>, basis: Basis): (r: seq<Gain>)
    ensures |r| == |Filter(results, Started)|
    ensures forall i :: 0 <= i < |r| ==>
      r[i] == Gain(Filter(results, Started)[i].driver, GainOf(Filter(results, Started)[i], basis))
    ensures forall g :: g in r <==>
      exists c :: c in results && c.grid != 0 && g == Gain(c.driver, GainOf(c, basis))
  {
    if |results| == 0 then []
    else
      var c := results[0];
      assert forall d :: d in results <==> d == c || d in results[1..];
      var rest := Collect(results[1..], basis);
      if c.grid != 0 then [Gain(c.driver, GainOf(c, basis))] + rest else rest
  }

  function GainKey(g: Gain): real
  {
    g.gained as real
  }

  /** The ranking shown by the bar chart, smallest gain first. */
  function GainedPositions(results: seq<Classification>, basis: Basis): (r: seq<Gain>)
    ensures SortedBy(r, GainKey)
    ensures multiset(r) == multiset(Collect(results, basis))
    ensures forall g :: g in r <==>
      exists c :: c in results && c.grid != 0 && g == Gain(c.driver, GainOf(c, basis))
  {
    var r := SortBy(Collect(results, basis), GainKey);
    assert forall g :: g in r <==> g in Collect(results, basis) by {
      forall g ensures g in r <==> g in Collect(results, basis) {
        assert g in r <==> g in multiset(r);
      }
    }
    r
  }

  /** `get_gained_positions_on_first_lap`: grid slot minus position after lap 1. */
  function GainedOnFirstLap(results: seq<Classification>): (r: seq<Gain>)
    ensures SortedBy(r, GainKey)
    ensures multiset(r) == multiset(Collect(results, FirstLap))
    ensures |r| == |Filter(results, Started)|
    ensures forall g :: g in r <==>
      exists c :: c in results && c.grid != 0 && g == Gain(c.driver, c.grid - c.afterFirstLap)
  {
    GainedPositions(results, FirstLap)
  }

  /** `get_gained_positions_in_full_race`: grid slot minus finish position. */
  function GainedInFullRace(results: seq<Classification>): (r: seq<Gain>)
    ensures SortedBy(r, GainKey)
    ensures multiset(r) == multiset(Collect(results, FullRace))
    ensures |r| == |Filter(results, Started)|
    ensures forall g :: g in r <==>
      exists c :: c in results && c.grid != 0 && g == Gain(c.driver, c.grid - c.finish)
  {
    GainedPositions(results, FullRace)
  }

  predicate DistinctDrivers(results: seq<Classification>)
  {
    forall i, j :: 0 <= i < j < |results| ==> results[i].driver != results[j].driver
  }

  /** A driver starting from the pit lane never appears in the ranking. */
  lemma PitLaneStartersExcluded(results: seq<Classification>, basis: Basis, c: Classification)
    requires DistinctDrivers(results)
    requires c in results && c.grid == 0
    ensures forall g :: g in GainedPositions(results, basis) ==> g.driver != c.driver
  {
  }

  /** Drivers with equal gains keep their session order (`sorted` is stable). */
  lemma TiesKeepSessionOrder(results: seq<Classification>, basis: Basis, k: int)
    ensures WithKey(GainedPositions(results, basis), GainKey, k as real)
         == WithKey(Collect(results, basis), GainKey, k as real)
  {
    SortByStable(Collect(results, basis), GainKey, k as real);
  }
}

=== FILE: launch_times.dfy ===
/** 0-to-X launch times from the first lap of a race
    (`get_0_x_times`, `get_0_x_times_wall`).

    For each driver, lap 1 keeps the samples with non-negative speed that
    are not later than the first sample whose speed reaches the target; the
    time at which the target was crossed is linearly interpolated between
    the last two samples kept, the drivers are ranked by that time and each
    one's gap to the quickest is reported. */
module LaunchTimes {
  import opened Results
  import opened Seqs
  import opened Sorting

  /** A telemetry sample: seconds since the start of the lap and speed. */
  datatype Point = Point(time: real, speed: real)

  datatype DriverLap = DriverLap(driver: string, telemetry: seq<Point>)

  datatype LaunchTime = LaunchTime(driver: string, seconds: real)

  datatype Gap = Gap(driver: string, gap: real)

  /** The index of the first sample at or above `target`, searching from `from`. */
  function FirstFrom(lap: seq<Point>, target: real, from: nat): (r: Option<nat>)
    requires from <= |lap|
    ensures r.None? <==> forall i :: from <= i < |lap| ==> lap[i].speed < target
    ensures r.Some? ==> from <= r.value < |lap| && lap[r.value].speed >= target
    ensures r.Some? ==> forall i :: from <= i < r.value ==> lap[i].speed < target
    decreases |lap| - from
  {
    if from == |lap| then None
    else if lap[from].speed >= target then Some(from)
    else FirstFrom(lap, target, from + 1)
  }

  /** The first sample whose speed reaches `target` (`iloc[0]` of the selection). */
  function FirstAtOrAbove(lap: seq<Point>, target: real): (r: Option<nat>)
    ensures r.None? <==> forall i :: 0 <= i < |lap| ==> lap[i].speed < target
    ensures r.Some? ==> r.value < |lap| && lap[r.value].speed >= target
    ensures r.Some? ==> forall i :: 0 <= i < r.value ==> lap[i].speed < target
  {
    FirstFrom(lap, target, 0)
  }

  /** The launch filter: not later than the crossing sample, non-negative speed. */
  function Kept(crossing: real): Point -> bool
  {
    (p: Point) => p.time <= crossing && p.speed >= 0.0
  }

  /** The time at which the speed `target` is reached on the straight line
      through (prev.speed, prev.time) and (last.speed, last.time). */
  function Interpolate(prev: Point, last: Point, target: real): (t: real)
    requires prev.speed != last.speed
    ensures (t - prev.time) * (last.speed - prev.speed) == (last.time - prev.time) * (target - prev.speed)
  {
    (last.time - prev.time) / (last.speed - prev.speed) * (target - prev.speed) + prev.time
  }

  /** When the target lies between the two speeds, the interpolated time
      lies between the two times, and it is the later time exactly when the
      later sample is exactly at the target. */
  lemma InterpolationBracket(prev: Point, last: Point, target: real)
    requires prev.speed < target <= last.speed
    requires prev.time <= last.time
    ensures prev.time <= Interpolate(prev, last, target) <= last.time
    ensures last.speed == target ==> Interpolate(prev, last, target) == last.time
    ensures prev.time < last.time ==> (Interpolate(prev, last, target) == last.time <==> last.speed == target)
  {
    var dt := last.time - prev.time;
    var dv := last.speed - prev.speed;
    var frac := (target - prev.speed) / dv;
    assert 0.0 < frac <= 1.0;
    assert frac == 1.0 <==> last.speed == target;
    assert dt / dv * (target - prev.speed) == dt * frac;
    assert 0.0 <= dt * frac <= dt;
    assert dt > 0.0 ==> (dt * frac == dt <==> frac == 1.0);
  }

  /** Some sample of the lap is below the target speed. */
  predicate SomeBelow(lap: seq<Point>, target: real)
  {
    exists i :: 0 <= i < |lap| && lap[i].speed < target
  }

  /** The interpolation step on the rows the launch filter kept. */
  function FromKept(kept: seq<Point>, someBelow: bool, target: real): (r: Result<real>)
    ensures r.Ok? <==> |kept| >= 2 && someBelow && kept[|kept| - 2].speed != kept[|kept| - 1].speed
  {
    if |kept| < 2 then Err(TooFewSamplesBeforeTarget)
    else if !someBelow then Err(NoSampleBelowTarget)
    else
      var prev := kept[|kept| - 2];
      var last := kept[|kept| - 1];
      if last.speed == prev.speed then Err(FlatSpeedAtCrossing)
      else Ok(Interpolate(prev, last, target))
  }

  /** The interpolated 0-to-`target` time of one lap, with the exceptions the
      analysis raises on unsuitable telemetry. */
  function CrossingTime(lap: seq<Point>, target: real): (r: Result<real>)
    ensures r == Err(TargetSpeedNeverReached) <==> forall i :: 0 <= i < |lap| ==> lap[i].speed < target
  {
    match FirstAtOrAbove(lap, target)
    case None => Err(TargetSpeedNeverReached)
    case Some(j) => FromKept(Filter(lap, Kept(lap[j].time)), SomeBelow(lap, target), target)
  }

  predicate StrictlyIncreasingTimes(lap: seq<Point>)
  {
    forall i, j :: 0 <= i < j < |lap| ==> lap[i].time < lap[j].time
  }

  /** With time running forward, the launch filter keeps the non-negative
      samples before the crossing sample, then the crossing sample itself. */
  lemma KeptShape(lap: seq<Point>, target: real, j: nat)
    requires StrictlyIncreasingTimes(lap) && target >= 0.0
    requires FirstAtOrAbove(lap, target) == Some(j)
    ensures Filter(lap, Kept(lap[j].time)) == Filter(lap[..j], Kept(lap[j].time)) + [lap[j]]
  {
    var p := Kept(lap[j].time);
    forall m | j < m < |lap| ensures !p(lap[m]) {
    }
    FilterLast(lap, p, j);
  }

  /** `lap[i]` is the last sample before index `j` with a non-negative speed. */
  predicate LastStart(lap: seq<Point>, i: nat, j: nat)
  {
    && i < j <= |lap|
    && lap[i].speed >= 0.0
    && (forall m :: i < m < j ==> lap[m].speed < 0.0)
  }

  /** With time running forward and the crossing sample at `j`, the launch
      time is the interpolation between the crossing sample and the last
      non-negative sample before it; it fails exactly when there is none. */
  lemma CrossingAt(lap: seq<Point>, target: real, j: nat)
    requires StrictlyIncreasingTimes(lap) && target >= 0.0
    requires FirstAtOrAbove(lap, target) == Some(j)
    ensures CrossingTime(lap, target).Ok? <==> exists i :: 0 <= i < j && lap[i].speed >= 0.0
    ensures CrossingTime(lap, target).Ok? ==> exists i: nat ::
      LastStart(lap, i, j) && CrossingTime(lap, target) == Ok(Interpolate(lap[i], lap[j], target))
  {
    if exists i :: 0 <= i < j && lap[i].speed >= 0.0 {
      var i :| 0 <= i < j && lap[i].speed >= 0.0;
      var k := LastStartBefore(lap, j, i);
      CrossingAfterStart(lap, target, j, k);
    } else {
      NoCrossingWithoutStart(lap, target, j);
    }
  }

  /** Searching back from `j` finds the last non-negative sample. */
  lemma LastStartBefore(lap: seq<Point>, j: nat, i: nat) returns (k: nat)
    requires i < j <= |lap| && lap[i].speed >= 0.0
    ensures i <= k && LastStart(lap, k, j)
    decreases j
  {
    if lap[j - 1].speed >= 0.0 {
      k := j - 1;
    } else {
      k := LastStartBefore(lap, j - 1, i);
    }
  }

  lemma CrossingAfterStart(lap: seq<Point>, target: real, j: nat, k: nat)
    requires StrictlyIncreasingTimes(lap) && target >= 0.0
    requires FirstAtOrAbove(lap, target) == Some(j)
    requires LastStart(lap, k, j)
    ensures CrossingTime(lap, target) == Ok(Interpolate(lap[k], lap[j], target))
  {
    var p := Kept(lap[j].time);
    var before := Filter(lap[..k], p);
    LastKeptBefore(lap, target, j, k);
    var kept := before + [lap[k]] + [lap[j]];
    assert CrossingTime(lap, target) == FromKept(kept, SomeBelow(lap, target), target) by {
      KeptShape(lap, target, j);
    }
    assert SomeBelow(lap, target);
    assert kept[|kept| - 2] == lap[k] && kept[|kept| - 1] == lap[j];
  }

  /** Among the samples before the crossing one, the filter keeps the last
      non-negative one last. */
  lemma LastKeptBefore(lap: seq<Point>, target: real, j: nat, k: nat)
    requires StrictlyIncreasingTimes(lap)
    requires FirstAtOrAbove(lap, target) == Some(j)
    requires LastStart(lap, k, j)
    ensures Filter(lap[..j], Kept(lap[j].time)) == Filter(lap[..k], Kept(lap[j].time)) + [lap[k]]
  {
    var p := Kept(lap[j].time);
    var early := lap[..j];
    assert p(early[k]);
    forall m | k < m < |early| ensures !p(early[m]) {
      assert early[m] == lap[m];
    }
    FilterLast(early, p, k);
    assert early[..k] == lap[..k];
  }

  lemma NoCrossingWithoutStart(lap: seq<Point>, target: real, j: nat)
    requires StrictlyIncreasingTimes(lap) && target >= 0.0
    requires FirstAtOrAbove(lap, target) == Some(j)
    requires forall i :: 0 <= i < j ==> lap[i].speed < 0.0
    ensures CrossingTime(lap, target) == Err(TooFewSamplesBeforeTarget)
  {
    var p := Kept(lap[j].time);
    KeptShape(lap, target, j);
    var before := Filter(lap[..j], p);
    var early := lap[..j];
    forall i | 0 <= i < |early| ensures !p(early[i]) {
      assert early[i] == lap[i];
    }
    FilterNone(early, p);
    assert CrossingTime(lap, target) == FromKept([lap[j]], SomeBelow(lap, target), target);
  }

  /** On telemetry whose time runs forward, the launch time succeeds exactly
      when the target is reached and some earlier sample has a non-negative
      speed. */
  lemma CrossingSucceeds(lap: seq<Point>, target: real)
    requires StrictlyIncreasingTimes(lap) && target >= 0.0
    ensures CrossingTime(lap, target).Ok? <==>
      exists j :: 0 <= j < |lap| && lap[j].speed >= target
        && (forall i :: 0 <= i < j ==> lap[i].speed < target)
        && (exists i :: 0 <= i < j && lap[i].speed >= 0.0)
  {
    match FirstAtOrAbove(lap, target)
    case None =>
    case Some(j) =>
      CrossingAt(lap, target, j);
  }

  /** On telemetry whose time runs forward, the launch time is interpolated
      between the last non-negative sample before the first sample at or
      above the target and that sample; it lies between their times and is
      the latter's time exactly when that sample is exactly at the target. */
  lemma CrossingBracketed(lap: seq<Point>, target: real, i: nat, j: nat)
    requires StrictlyIncreasingTimes(lap) && target >= 0.0
    requires j < |lap| && lap[j].speed >= target
    requires forall m :: 0 <= m < j ==> lap[m].speed < target
    requires LastStart(lap, i, j)
    ensures CrossingTime(lap, target) == Ok(Interpolate(lap[i], lap[j], target))
    ensures lap[i].time <= CrossingTime(lap, target).value <= lap[j].time
    ensures CrossingTime(lap, target).value == lap[j].time <==> lap[j].speed == target
  {
    var r := FirstAtOrAbove(lap, target);
    assert r == Some(j) by {
      assert r.Some?;
      assert !(r.value < j) && !(j < r.value);
    }
    CrossingAfterStart(lap, target, j, i);
    InterpolationBracket(lap[i], lap[j], target);
  }

  /** Every driver's launch time, or the first driver's failure. */
  function Times(laps: seq<DriverLap>, target: real): (r: Result<seq<LaunchTime>>)
    ensures r.Ok? <==> forall i :: 0 <= i < |laps| ==> CrossingTime(laps[i].telemetry, target).Ok?
    ensures r.Ok? ==> |r.value| == |laps|
    ensures r.Ok? ==> forall i :: 0 <= i < |laps| ==>
      r.value[i] == LaunchTime(laps[i].driver, CrossingTime(laps[i].telemetry, target).value)
  {
    if |laps| == 0 then Ok([])
    else
      match CrossingTime(laps[0].telemetry, target)
      case Err(e) => Err(e)
      case Ok(t) =>
        match Times(laps[1..], target)
        case Err(e) => Err(e)
        case Ok(rest) => Ok([LaunchTime(laps[0].driver, t)] + rest)
  }

  /** The quickest launch time (an independent reference for the pole entry). */
  function Quickest(ts: seq<LaunchTime>): (m: real)
    requires |ts| > 0
    ensures forall i :: 0 <= i < |ts| ==> m <= ts[i].seconds
    ensures exists i :: 0 <= i < |ts| && ts[i].seconds == m
  {
    if |ts| == 1 then ts[0].seconds
    else
      var rest := Quickest(ts[1..]);
      assert forall i :: 1 <= i < |ts| ==> ts[i] == ts[1..][i - 1];
      if ts[0].seconds <= rest then ts[0].seconds else rest
  }

  function SecondsKey(t: LaunchTime): real
  {
    t.seconds
  }

  function GapKey(g: Gap): real
  {
    g.gap
  }

  /** Order launch times, quickest first, and give each driver's gap to the quickest. */
  function RankByTime(ts: seq<LaunchTime>): (gaps: seq<Gap>)
    requires |ts| > 0
    ensures |gaps| == |ts| && gaps[0].gap == 0.0
    ensures SortedBy(gaps, GapKey)
    ensures forall g :: g in gaps ==> g.gap >= 0.0
    ensures GapsMatchTimes(gaps, ts, Quickest(ts))
    ensures multiset(gaps) == multiset(Map(ts, GapFrom(Quickest(ts))))
  {
    var ranked := SortBy(ts, SecondsKey);
    RankedHeadIsQuickest(ts, ranked);
    var best := Quickest(ts);
    var gaps := GapsTo(ranked, best);
    GapsOrdered(ranked, best, gaps);
    GapsMatch(ts, ranked, gaps, best);
    GapsPermute(ts, ranked, best);
    gaps
  }

  /** A driver's gap to `best`. */
  function GapFrom(best: real): LaunchTime -> Gap
  {
    (t: LaunchTime) => Gap(t.driver, t.seconds - best)
  }

  /** The gaps of the reordered times are the drivers' gaps, reordered. */
  lemma GapsPermute(ts: seq<LaunchTime>, ranked: seq<LaunchTime>, best: real)
    requires multiset(ranked) == multiset(ts)
    ensures multiset(GapsTo(ranked, best)) == multiset(Map(ts, GapFrom(best)))
  {
    assert GapsTo(ranked, best) == Map(ranked, GapFrom(best));
    MapPermutes(ranked, ts, GapFrom(best));
  }

  /** Every gap is some driver's time minus `best`, and every driver has one. */
  predicate GapsMatchTimes(gaps: seq<Gap>, ts: seq<LaunchTime>, best: real)
  {
    && (forall g :: g in gaps ==> exists i :: 0 <= i < |ts| && g == Gap(ts[i].driver, ts[i].seconds - best))
    && (forall i :: 0 <= i < |ts| ==> Gap(ts[i].driver, ts[i].seconds - best) in gaps)
  }

  function GapsTo(ranked: seq<LaunchTime>, best: real): (gaps: seq<Gap>)
    ensures |gaps| == |ranked|
    ensures forall i :: 0 <= i < |gaps| ==> gaps[i] == Gap(ranked[i].driver, ranked[i].seconds - best)
  {
    seq(|ranked|, i requires 0 <= i < |ranked| => Gap(ranked[i].driver, ranked[i].seconds - best))
  }

  /** The ranking drawn by the bar chart, or the failure that stops it. */
  function LaunchGaps(laps: seq<DriverLap>, target: real): (r: Result<seq<Gap>>)
    ensures r.Ok? <==> |laps| > 0 && forall i :: 0 <= i < |laps| ==> CrossingTime(laps[i].telemetry, target).Ok?
    ensures |laps| == 0 ==> r == Err(NoDrivers)
    ensures r.Ok? ==> Times(laps, target).Ok? && r.value == RankByTime(Times(laps, target).value)
  {
    if |laps| == 0 then Err(NoDrivers)
    else
      var ts := Times(laps, target);
      if ts.Err? then Err(ts.error) else Ok(RankByTime(ts.value))
  }

  lemma RankedHeadIsQuickest(ts: seq<LaunchTime>, ranked: seq<LaunchTime>)
    requires |ts| > 0 && |ranked| == |ts|
    requires multiset(ranked) == multiset(ts) && SortedBy(ranked, SecondsKey)
    ensures ranked[0].seconds == Quickest(ts)
  {
    var k :| 0 <= k < |ts| && ts[k].seconds == Quickest(ts);
    assert ts[k] in multiset(ranked);
    assert ranked[0] in multiset(ts);
  }

  lemma GapsOrdered(ranked: seq<LaunchTime>, best: real, gaps: seq<Gap>)
    requires |ranked| > 0 && best == ranked[0].seconds && SortedBy(ranked, SecondsKey)
    requires gaps == GapsTo(ranked, best)
    ensures gaps[0].gap == 0.0
    ensures SortedBy(gaps, GapKey)
    ensures forall g :: g in gaps ==> g.gap >= 0.0
  {
  }

  lemma GapsMatch(ts: seq<LaunchTime>, ranked: seq<LaunchTime>, gaps: seq<Gap>, best: real)
    requires |ranked| == |gaps|
    requires multiset(ranked) == multiset(ts)
    requires forall i :: 0 <= i < |gaps| ==> gaps[i] == Gap(ranked[i].driver, ranked[i].seconds - best)
    ensures GapsMatchTimes(gaps, ts, best)
  {
    GapsComeFromTimes(ts, ranked, gaps, best);
    TimesHaveGaps(ts, ranked, gaps, best);
  }

  lemma GapsComeFromTimes(ts: seq<LaunchTime>, ranked: seq<LaunchTime>, gaps: seq<Gap>, best: real)
    requires |ranked| == |gaps|
    requires multiset(ranked) == multiset(ts)
    requires forall i :: 0 <= i < |gaps| ==> gaps[i] == Gap(ranked[i].driver, ranked[i].seconds - best)
    ensures forall g :: g in gaps ==> exists i :: 0 <= i < |ts| && g == Gap(ts[i].driver, ts[i].seconds - best)
  {
    forall g | g in gaps ensures exists i :: 0 <= i < |ts| && g == Gap(ts[i].driver, ts[i].seconds - best) {
      var k :| 0 <= k < |gaps| && gaps[k] == g;
      assert ranked[k] in multiset(ts);
      var i :| 0 <= i < |ts| && ts[i] == ranked[k];
    }
  }

  lemma TimesHaveGaps(ts: seq<LaunchTime>, ranked: seq<LaunchTime>, gaps: seq<Gap>, best: real)
    requires |ranked| == |gaps|
    requires multiset(ranked) == multiset(ts)
    requires forall i :: 0 <= i < |gaps| ==> gaps[i] == Gap(ranked[i].driver, ranked[i].seconds - best)
    ensures forall i :: 0 <= i < |ts| ==> Gap(ts[i].driver, ts[i].seconds - best) in gaps
  {
    forall i | 0 <= i < |ts| ensures Gap(ts[i].driver, ts[i].seconds - best) in gaps {
      assert ts[i] in multiset(ranked);
      var k :| 0 <= k < |ranked| && ranked[k] == ts[i];
      assert gaps[k] == Gap(ts[i].driver, ts[i].seconds - best);
    }
  }

  function GapDriver(g: Gap): string
  {
    g.driver
  }

  function TimeDriver(t: LaunchTime): string
  {
    t.driver
  }

  /** The gaps of the ranked times are equal exactly where the times are,
      and list the same drivers. */
  lemma {:induction false} GapsToWithKey(ranked: seq<LaunchTime>, best: real, t: real)
    ensures Map(WithKey(GapsTo(ranked, best), GapKey, t - best), GapDriver)
         == Map(WithKey(ranked, SecondsKey, t), TimeDriver)
  {
    if |ranked| > 0 {
      var gaps := GapsTo(ranked, best);
      assert gaps[1..] == GapsTo(ranked[1..], best);
      GapsToWithKey(ranked[1..], best, t);
      var g := WithKey(gaps[1..], GapKey, t - best);
      var w := WithKey(ranked[1..], SecondsKey, t);
      if ranked[0].seconds == t {
        assert Map([gaps[0]] + g, GapDriver) == [ranked[0].driver] + Map(g, GapDriver);
        assert Map([ranked[0]] + w, TimeDriver) == [ranked[0].driver] + Map(w, TimeDriver);
      }
    }
  }

  lemma RankByTimeIs(ts: seq<LaunchTime>)
    requires |ts| > 0
    ensures RankByTime(ts) == GapsTo(SortBy(ts, SecondsKey), Quickest(ts))
  {
  }

  lemma TiesInRankedGaps(ts: seq<LaunchTime>, ranked: seq<LaunchTime>, best: real, t: real)
    requires ranked == SortBy(ts, SecondsKey)
    ensures Map(WithKey(GapsTo(ranked, best), GapKey, t - best), GapDriver)
         == Map(WithKey(ts, SecondsKey, t), TimeDriver)
  {
    GapsToWithKey(ranked, best, t);
    SortByStable(ts, SecondsKey, t);
  }

  /** Drivers with equal launch times appear in the ranking in session
      order (`sorted` is stable). */
  lemma TiesKeepSessionOrder(ts: seq<LaunchTime>, t: real)
    requires |ts| > 0
    ensures Map(WithKey(RankByTime(ts), GapKey, t - Quickest(ts)), GapDriver)
         == Map(WithKey(ts, SecondsKey, t), TimeDriver)
  {
    var ranked := SortBy(ts, SecondsKey);
    var best := Quickest(ts);
    calc {
      Map(WithKey(RankByTime(ts), GapKey, t - best), GapDriver);
    ==  { RankByTimeIs(ts); }
      Map(WithKey(GapsTo(ranked, best), GapKey, t - best), GapDriver);
    ==  { TiesInRankedGaps(ts, ranked, best, t); }
      Map(WithKey(ts, SecondsKey, t), TimeDriver);
    }
  }
}

=== FILE: minisectors.dfy ===
/** Minisector dominance: which of two drivers was quicker through each of
    25 equal slices of the lap (`compare_fastest_lap_visualization_on_map`).

    Both drivers' fastest-lap telemetry is merged, the lap is cut into
    minisectors of length `max distance / 25`, every sample is labelled
    `floor(distance / length) + 1`, the driver with the larger mean speed
    in a minisector wins it, every sample is joined with its minisector's
    winner and the rows are ordered by distance. */
module Minisectors {
  import opened Results
  import opened Seqs
  import opened Sorting

  /** The number of minisectors the lap is cut into. */
  const NumMinisectors: int := 25

  /** One telemetry sample; `x` and `y` are the car's track coordinates. */
  datatype Sample = Sample(distance: real, speed: real, x: real, y: real)

  /** A sample of the merged telemetry, with its `Driver` column. */
  datatype Tagged = Tagged(driver: string, sample: Sample)

  /** A merged sample with its `Minisector` column. */
  datatype Row = Row(driver: string, sample: Sample, minisector: int)

  /** A row after the join with the per-minisector winners:
      `fastest` is the `Fastest_driver` column, `code` is `Fastest_driver_int`. */
  datatype Painted = Painted(driver: string, sample: Sample, minisector: int, fastest: string, code: int)

  predicate NonNegativeDistances(lap: seq<Sample>)
  {
    forall i :: 0 <= i < |lap| ==> lap[i].distance >= 0.0
  }

  /** Every sample of the lap sits at distance 0 (this includes the empty lap). */
  predicate AllAtStart(lap: seq<Sample>)
  {
    forall i :: 0 <= i < |lap| ==> lap[i].distance == 0.0
  }

  function Tag(driver: string, lap: seq<Sample>): seq<Tagged>
  {
    seq(|lap|, i requires 0 <= i < |lap| => Tagged(driver, lap[i]))
  }

  /** Driver 1's samples followed by driver 2's, each tagged with its driver. */
  function Merge(lap1: seq<Sample>, driver1: string, lap2: seq<Sample>, driver2: string): (r: seq<Tagged>)
    ensures |r| == |lap1| + |lap2|
    ensures forall i :: 0 <= i < |lap1| ==> r[i] == Tagged(driver1, lap1[i])
    ensures forall i :: 0 <= i < |lap2| ==> r[|lap1| + i] == Tagged(driver2, lap2[i])
  {
    Tag(driver1, lap1) + Tag(driver2, lap2)
  }

  /** The largest distance in the merged telemetry (`total_distance`). */
  function MaxDistance(rows: seq<Tagged>): (r: real)
    requires |rows| > 0
    ensures forall i :: 0 <= i < |rows| ==> rows[i].sample.distance <= r
    ensures exists i :: 0 <= i < |rows| && rows[i].sample.distance == r
  {
    if |rows| == 1 then rows[0].sample.distance
    else
      var rest := MaxDistance(rows[1..]);
      assert forall i :: 1 <= i < |rows| ==> rows[i] == rows[1..][i - 1];
      if rows[0].sample.distance >= rest then rows[0].sample.distance else rest
  }

  function MinisectorLength(total: real): real
  {
    total / NumMinisectors as real
  }

  /** The 1-based minisector label `int(distance // length + 1)`; it is not
      clamped, so the sample at the very end of the lap gets label 26. */
  function Label(distance: real, length: real): (m: int)
    requires length > 0.0
    ensures (m - 1) as real * length <= distance < m as real * length
  {
    var m := (distance / length).Floor + 1;
    LabelBounds(distance, length, m);
    m
  }

  lemma LabelBounds(distance: real, length: real, m: int)
    requires length > 0.0 && m == (distance / length).Floor + 1
    ensures (m - 1) as real * length <= distance < m as real * length
  {
    var q := distance / length;
    var f := (m - 1) as real;
    assert f <= q < f + 1.0;
    assert q * length == distance;
    ScaleLe(f, q, length);
    ScaleLt(q, f + 1.0, length);
    calc {
      distance;
    ==
      q * length;
    <
      (f + 1.0) * length;
    ==
      { assert m as real == f + 1.0; }
      m as real * length;
    }
  }

  lemma ScaleLe(a: real, b: real, c: real)
    requires a <= b && c > 0.0
    ensures a * c <= b * c
  {
  }

  lemma ScaleLt(a: real, b: real, c: real)
    requires a < b && c > 0.0
    ensures a * c < b * c
  {
  }

  /** Labels lie in 1..25 inside the lap and are 26 exactly at its end. */
  lemma LabelRange(total: real, distance: real)
    requires total > 0.0 && 0.0 <= distance <= total
    ensures 1 <= Label(distance, MinisectorLength(total)) <= NumMinisectors + 1
    ensures Label(distance, MinisectorLength(total)) == NumMinisectors + 1 <==> distance == total
  {
    var len := MinisectorLength(total);
    var q := distance / len;
    assert q == 25.0 * distance / total;
    assert 0.0 <= q <= 25.0;
    assert q == 25.0 <==> distance == total;
  }

  /** A sample further along the lap never gets a smaller label. */
  lemma LabelMonotone(length: real, a: real, b: real)
    requires length > 0.0 && a <= b
    ensures Label(a, length) <= Label(b, length)
  {
    assert a / length <= b / length;
  }

  /** The minisector start points `[0, L, 2L, ..., 24L]`. */
  method MinisectorStarts(total: real) returns (starts: seq<real>)
    ensures |starts| == NumMinisectors && starts[0] == 0.0
    ensures forall k :: 0 < k < |starts| ==> starts[k] - starts[k - 1] == MinisectorLength(total)
    ensures total > 0.0 ==> forall k :: 0 < k < |starts| ==> starts[k - 1] < starts[k]
    ensures starts[NumMinisectors - 1] + MinisectorLength(total) == total
  {
    var len := MinisectorLength(total);
    starts := [0.0];
    var i := 0;
    while i < NumMinisectors - 1
      invariant 0 <= i <= NumMinisectors - 1
      invariant |starts| == i + 1
      invariant forall k :: 0 <= k < |starts| ==> starts[k] == k as real * len
    {
      starts := starts + [len * (i + 1) as real];
      i := i + 1;
    }
  }

  function LabelAll(rows: seq<Tagged>, length: real): (r: seq<Row>)
    requires length > 0.0
  {
    seq(|rows|, i requires 0 <= i < |rows| =>
      Row(rows[i].driver, rows[i].sample, Label(rows[i].sample.distance, length)))
  }

  /** How many rows of `driver` carry label `m`. */
  function Count(rows: seq<Row>, driver: string, m: int): nat
  {
    if |rows| == 0 then 0
    else (if rows[0].driver == driver && rows[0].minisector == m then 1 else 0) + Count(rows[1..], driver, m)
  }

  /** The sum of the speeds of the rows of `driver` that carry label `m`. */
  function SpeedSum(rows: seq<Row>, driver: string, m: int): real
  {
    if |rows| == 0 then 0.0
    else
      var own := if rows[0].driver == driver && rows[0].minisector == m then rows[0].sample.speed else 0.0;
      own + SpeedSum(rows[1..], driver, m)
  }

  /** `driver`'s mean speed in minisector `m`. */
  function MeanSpeed(rows: seq<Row>, driver: string, m: int): real
    requires Count(rows, driver, m) > 0
  {
    SpeedSum(rows, driver, m) / Count(rows, driver, m) as real
  }

  /** The speeds of `driver`'s rows in minisector `m` all lie in [lo, hi]. */
  predicate SpeedsWithin(rows: seq<Row>, driver: string, m: int, lo: real, hi: real)
  {
    forall i :: 0 <= i < |rows| && rows[i].driver == driver && rows[i].minisector == m ==>
      lo <= rows[i].sample.speed <= hi
  }

  lemma SpeedsWithinTail(rows: seq<Row>, driver: string, m: int, lo: real, hi: real)
    requires |rows| > 0 && SpeedsWithin(rows, driver, m, lo, hi)
    ensures SpeedsWithin(rows[1..], driver, m, lo, hi)
    ensures rows[0].driver == driver && rows[0].minisector == m ==> lo <= rows[0].sample.speed <= hi
  {
    forall i | 0 <= i < |rows[1..]| ensures rows[1..][i] == rows[i + 1] {
    }
  }

  lemma {:induction false} SpeedSumWithin(rows: seq<Row>, driver: string, m: int, lo: real, hi: real)
    requires SpeedsWithin(rows, driver, m, lo, hi)
    ensures Count(rows, driver, m) as real * lo <= SpeedSum(rows, driver, m) <= Count(rows, driver, m) as real * hi
  {
    if |rows| > 0 {
      var rest := rows[1..];
      SpeedsWithinTail(rows, driver, m, lo, hi);
      SpeedSumWithin(rest, driver, m, lo, hi);
      var n, sum := Count(rest, driver, m), SpeedSum(rest, driver, m);
      if rows[0].driver == driver && rows[0].minisector == m {
        assert Count(rows, driver, m) as real == n as real + 1.0;
        assert SpeedSum(rows, driver, m) == sum + rows[0].sample.speed;
        AddOneWithin(n as real, sum, rows[0].sample.speed, lo, hi);
      } else {
        assert Count(rows, driver, m) == n && SpeedSum(rows, driver, m) == sum;
      }
    }
  }

  lemma AddOneWithin(n: real, sum: real, v: real, lo: real, hi: real)
    requires n * lo <= sum <= n * hi && lo <= v <= hi
    ensures (n + 1.0) * lo <= sum + v <= (n + 1.0) * hi
  {
  }

  /** A mean speed lies between the slowest and the fastest sample it averages. */
  lemma MeanSpeedWithin(rows: seq<Row>, driver: string, m: int, lo: real, hi: real)
    requires Count(rows, driver, m) > 0
    requires SpeedsWithin(rows, driver, m, lo, hi)
    ensures lo <= MeanSpeed(rows, driver, m) <= hi
  {
    SpeedSumWithin(rows, driver, m, lo, hi);
    QuotientWithin(SpeedSum(rows, driver, m), Count(rows, driver, m) as real, lo, hi);
  }

  lemma QuotientWithin(sum: real, n: real, lo: real, hi: real)
    requires n > 0.0 && n * lo <= sum <= n * hi
    ensures lo <= sum / n <= hi
  {
    assert sum / n * n == sum;
  }

  lemma {:induction false} CountPositive(rows: seq<Row>, i: int)
    requires 0 <= i < |rows|
    ensures Count(rows, rows[i].driver, rows[i].minisector) > 0
  {
    if i > 0 {
      CountPositive(rows[1..], i - 1);
    }
  }

  /** Python string order (by code point, a proper prefix first): the order
      in which the grouped table lists the drivers of a minisector. */
  predicate LexLess(a: string, b: string)
  {
    if |b| == 0 then false
    else if |a| == 0 then true
    else if a[0] != b[0] then a[0] < b[0]
    else LexLess(a[1..], b[1..])
  }

  lemma {:induction false} LexLessIrreflexive(a: string)
    ensures !LexLess(a, a)
  {
    if |a| > 0 {
      LexLessIrreflexive(a[1..]);
    }
  }

  lemma {:induction false} LexLessAsymmetric(a: string, b: string)
    requires LexLess(a, b)
    ensures !LexLess(b, a)
  {
    if |a| > 0 && |b| > 0 && a[0] == b[0] {
      LexLessAsymmetric(a[1..], b[1..]);
    }
  }

  /** Distinct names are always ordered one way or the other, so the
      tie-break always names a single driver. */
  lemma {:induction false} LexLessTotal(a: string, b: string)
    requires a != b
    ensures LexLess(a, b) || LexLess(b, a)
  {
    if |a| > 0 && |b| > 0 && a[0] == b[0] {
      assert a == [a[0]] + a[1..] && b == [b[0]] + b[1..];
      LexLessTotal(a[1..], b[1..]);
    }
  }

  /** The winner of minisector `m`: the present driver with the larger mean
      speed; on equal means the driver listed first by the grouping
      (`idxmax` returns the first maximum). None when nobody has a sample there. */
  function Winner(rows: seq<Row>, m: int, driver1: string, driver2: string): (w: Option<string>)
    ensures w.None? <==> Count(rows, driver1, m) == 0 && Count(rows, driver2, m) == 0
    ensures w.Some? ==> w.value in {driver1, driver2} && Count(rows, w.value, m) > 0
    ensures w.Some? && Count(rows, driver1, m) > 0 ==> MeanSpeed(rows, w.value, m) >= MeanSpeed(rows, driver1, m)
    ensures w.Some? && Count(rows, driver2, m) > 0 ==> MeanSpeed(rows, w.value, m) >= MeanSpeed(rows, driver2, m)
    ensures w.Some? && Count(rows, driver1, m) > 0 && Count(rows, driver2, m) > 0
      && MeanSpeed(rows, driver1, m) == MeanSpeed(rows, driver2, m)
      ==> !LexLess(driver1, w.value) && !LexLess(driver2, w.value)
  {
    var n1 := Count(rows, driver1, m);
    var n2 := Count(rows, driver2, m);
    if n1 == 0 && n2 == 0 then None
    else if n2 == 0 then Some(driver1)
    else if n1 == 0 then Some(driver2)
    else
      var v1 := MeanSpeed(rows, driver1, m);
      var v2 := MeanSpeed(rows, driver2, m);
      if v1 > v2 then Some(driver1)
      else if v2 > v1 then Some(driver2)
      else if LexLess(driver2, driver1) then
        LexLessIrreflexive(driver2);
        LexLessAsymmetric(driver2, driver1);
        Some(driver2)
      else
        LexLessIrreflexive(driver1);
        Some(driver1)
  }

  /** `Fastest_driver_int`: rows won by driver 1 are set to 1, then rows won
      by driver 2 are set to 2 (so 2 wins when both names coincide). */
  function Code(fastest: string, driver2: string): (c: int)
    ensures c == 1 || c == 2
    ensures c == 2 <==> fastest == driver2
  {
    if fastest == driver2 then 2 else 1
  }

  /** What the join promises of each painted row. */
  predicate PaintedFrom(p: Painted, rows: seq<Row>, driver1: string, driver2: string)
  {
    && Row(p.driver, p.sample, p.minisector) in rows
    && Winner(rows, p.minisector, driver1, driver2) == Some(p.fastest)
    && p.code == Code(p.fastest, driver2)
  }

  function Strip(p: Painted): Row
  {
    Row(p.driver, p.sample, p.minisector)
  }

  /** The inner join of `part` with the winners table computed over `all`:
      a row whose minisector had no winner would be dropped. */
  function Join(all: seq<Row>, part: seq<Row>, driver1: string, driver2: string): (r: seq<Painted>)
    requires forall x :: x in part ==> x in all
    ensures |r| <= |part|
    ensures forall p :: p in r ==> PaintedFrom(p, all, driver1, driver2)
  {
    if |part| == 0 then []
    else
      var rest := Join(all, part[1..], driver1, driver2);
      match Winner(all, part[0].minisector, driver1, driver2)
      case None => rest
      case Some(w) => [Painted(part[0].driver, part[0].sample, part[0].minisector, w, Code(w, driver2))] + rest
  }

  /** No sample is lost in the join: every minisector that occurs has a winner. */
  lemma {:induction false} JoinKeepsEveryRow(all: seq<Row>, part: seq<Row>, driver1: string, driver2: string)
    requires forall i :: 0 <= i < |part| ==> part[i] in all
    requires forall i :: 0 <= i < |all| ==> all[i].driver in {driver1, driver2}
    ensures |Join(all, part, driver1, driver2)| == |part|
    ensures forall i :: 0 <= i < |part| ==> Strip(Join(all, part, driver1, driver2)[i]) == part[i]
  {
    if |part| > 0 {
      JoinKeepsEveryRow(all, part[1..], driver1, driver2);
      var k :| 0 <= k < |all| && all[k] == part[0];
      CountPositive(all, k);
    }
  }

  function DistanceKey(p: Painted): real
  {
    p.sample.distance
  }

  /** Join every labelled row with its minisector's winner and order the
      result by distance: nothing is lost, every row gets its own winner. */
  function PaintByDistance(rows: seq<Row>, driver1: string, driver2: string): (out: seq<Painted>)
    requires forall i :: 0 <= i < |rows| ==> rows[i].driver in {driver1, driver2}
    ensures |out| == |rows|
    ensures SortedBy(out, DistanceKey)
    ensures forall p :: p in out ==> PaintedFrom(p, rows, driver1, driver2)
    ensures forall x :: x in rows ==> exists p :: p in out && Strip(p) == x
    ensures multiset(Map(out, Strip)) == multiset(rows)
  {
    var joined := Join(rows, rows, driver1, driver2);
    JoinKeepsEveryRow(rows, rows, driver1, driver2);
    var out := SortBy(joined, DistanceKey);
    assert Map(joined, Strip) == rows;
    MapPermutes(out, joined, Strip);
    PermutationCovers(rows, joined, out);
    assert forall p :: p in out ==> PaintedFrom(p, rows, driver1, driver2) by {
      forall p | p in out ensures PaintedFrom(p, rows, driver1, driver2) {
        assert p in multiset(out);
        assert p in joined;
      }
    }
    out
  }

  lemma PermutationCovers(rows: seq<Row>, joined: seq<Painted>, out: seq<Painted>)
    requires |joined| == |rows|
    requires forall i :: 0 <= i < |rows| ==> Strip(joined[i]) == rows[i]
    requires multiset(out) == multiset(joined)
    ensures forall x :: x in rows ==> exists p :: p in out && Strip(p) == x
  {
    forall x | x in rows ensures exists p :: p in out && Strip(p) == x {
      var i :| 0 <= i < |rows| && rows[i] == x;
      assert joined[i] in multiset(joined);
      assert joined[i] in out;
    }
  }

  /** The merged telemetry has positive length unless every sample sits at 0. */
  lemma MaxDistanceZero(lap1: seq<Sample>, driver1: string, lap2: seq<Sample>, driver2: string)
    requires NonNegativeDistances(lap1) && NonNegativeDistances(lap2)
    requires |lap1| + |lap2| > 0
    ensures MaxDistance(Merge(lap1, driver1, lap2, driver2)) >= 0.0
    ensures MaxDistance(Merge(lap1, driver1, lap2, driver2)) == 0.0 <==> AllAtStart(lap1) && AllAtStart(lap2)
  {
    var rows := Merge(lap1, driver1, lap2, driver2);
    assert forall i :: 0 <= i < |lap1| ==> rows[i].sample == lap1[i];
    assert forall i :: 0 <= i < |lap2| ==> rows[|lap1| + i].sample == lap2[i];
    assert forall i :: 0 <= i < |rows| ==> rows[i].sample.distance >= 0.0 by {
      forall i | 0 <= i < |rows| ensures rows[i].sample.distance >= 0.0 {
        if i >= |lap1| {
          assert rows[|lap1| + (i - |lap1|)].sample == lap2[i - |lap1|];
        }
      }
    }
  }

  /** The whole dominance computation over driver 1's and driver 2's fastest laps. */
  function Dominance(lap1: seq<Sample>, driver1: string, lap2: seq<Sample>, driver2: string): (r: Result<seq<Painted>>)
    requires NonNegativeDistances(lap1) && NonNegativeDistances(lap2)
    ensures r.Err? <==> AllAtStart(lap1) && AllAtStart(lap2)
    ensures r == Err(EmptyTelemetry) <==> |lap1| + |lap2| == 0
    ensures r.Ok? ==> |lap1| + |lap2| > 0 && MaxDistance(Merge(lap1, driver1, lap2, driver2)) > 0.0
    ensures r.Ok? && |lap1| + |lap2| > 0 && MaxDistance(Merge(lap1, driver1, lap2, driver2)) > 0.0 ==>
      var rows := Merge(lap1, driver1, lap2, driver2);
      var total := MaxDistance(rows);
      var labelled := LabelAll(rows, MinisectorLength(total));
      && |r.value| == |rows|
      && SortedBy(r.value, DistanceKey)
      && (forall p :: p in r.value ==> PaintedFrom(p, labelled, driver1, driver2))
      && (forall p :: p in r.value ==> p.minisector == Label(p.sample.distance, MinisectorLength(total)))
      && (forall x :: x in labelled ==> exists p :: p in r.value && Strip(p) == x)
      && multiset(Map(r.value, Strip)) == multiset(labelled)
      && (forall i, j :: 0 <= i < j < |r.value| ==> r.value[i].minisector <= r.value[j].minisector)
  {
    var rows := Merge(lap1, driver1, lap2, driver2);
    if |rows| == 0 then Err(EmptyTelemetry)
    else
      var total := MaxDistance(rows);
      MaxDistanceZero(lap1, driver1, lap2, driver2);
      if total == 0.0 then Err(ZeroMinisectorLength)
      else
        assert MinisectorLength(total) > 0.0;
        var labelled := LabelAll(rows, MinisectorLength(total));
        assert forall i :: 0 <= i < |labelled| ==> labelled[i].driver in {driver1, driver2} by {
          forall i | 0 <= i < |labelled| ensures labelled[i].driver in {driver1, driver2} {
            assert labelled[i].driver == rows[i].driver;
            if i >= |lap1| {
              assert rows[|lap1| + (i - |lap1|)].driver == driver2;
            }
          }
        }
        var out := PaintByDistance(labelled, driver1, driver2);
        LabelsFollowDistance(out, MinisectorLength(total));
        Ok(out)
  }

  /** Along rows ordered by distance, the minisector labels never decrease. */
  lemma LabelsFollowDistance(out: seq<Painted>, length: real)
    requires length > 0.0
    requires SortedBy(out, DistanceKey)
    requires forall p :: p in out ==> p.minisector == Label(p.sample.distance, length)
    ensures forall i, j :: 0 <= i < j < |out| ==> out[i].minisector <= out[j].minisector
  {
    forall i, j | 0 <= i < j < |out| ensures out[i].minisector <= out[j].minisector {
      assert out[i] in out && out[j] in out;
      LabelMonotone(length, out[i].sample.distance, out[j].sample.distance);
    }
  }

  /** With two distinct drivers the code is 1 exactly for driver 1's
      minisectors and 2 exactly for driver 2's. */
  lemma CodeIdentifiesWinner(p: Painted, rows: seq<Row>, driver1: string, driver2: string)
    requires driver1 != driver2
    requires PaintedFrom(p, rows, driver1, driver2)
    ensures p.code == 1 <==> p.fastest == driver1
    ensures p.code == 2 <==> p.fastest == driver2
  {
  }
}

=== FILE: qualifying.dfy ===
/** Qualifying gaps to pole (`quali_results_concrete[_wall]`, `quali_results`).

    Every driver's fastest lap is ordered by lap time; each lap's delta is
    its time minus the pole time; laps without a team are dropped, and so
    are laps 5 s or more off pole, to keep the chart readable. */
module Qualifying {
  import opened Results
  import opened Seqs
  import opened Sorting

  /** A driver's fastest qualifying lap; `team` is None where the `Team`
      column is missing. Lap times are in seconds. */
  datatype FastestLap = FastestLap(driver: string, team: Option<string>, lapTime: real)

  /** One bar of the chart: the `LapTimeDelta` of a kept lap. */
  datatype Delta = Delta(driver: string, team: string, delta: real)

  /** Laps this far (in seconds) or further off pole are not drawn. */
  const Cutoff: real := 5.0

  /** The pole time: the smallest lap time. */
  function PoleTime(laps: seq<FastestLap>): (m: real)
    requires |laps| > 0
    ensures forall i :: 0 <= i < |laps| ==> m <= laps[i].lapTime
    ensures exists i :: 0 <= i < |laps| && laps[i].lapTime == m
  {
    if |laps| == 1 then laps[0].lapTime
    else
      var rest := PoleTime(laps[1..]);
      assert forall i :: 1 <= i < |laps| ==> laps[i] == laps[1..][i - 1];
      if laps[0].lapTime <= rest then laps[0].lapTime else rest
  }

  function LapTimeKey(l: FastestLap): real
  {
    l.lapTime
  }

  function DeltaKey(d: Delta): real
  {
    d.delta
  }

  /** The row a lap becomes when it is drawn. */
  function RowOf(l: FastestLap, pole: real): Delta
    requires l.team.Some?
  {
    Delta(l.driver, l.team.value, l.lapTime - pole)
  }

  /** A lap is drawn when it has a team and is within the cutoff of pole. */
  predicate Drawn(l: FastestLap, pole: real)
  {
    l.team.Some? && l.lapTime - pole < Cutoff
  }

  function DrawnAt(pole: real): FastestLap -> bool
  {
    (l: FastestLap) => Drawn(l, pole)
  }

  /** `dropna(subset=['Team'])` followed by the `LapTimeDelta < 5 s` filter. */
  function Plotted(laps: seq<FastestLap>, pole: real): (r: seq<Delta>)
    ensures |r| <= |laps|
    ensures forall d :: d in r <==> exists l :: l in laps && Drawn(l, pole) && d == RowOf(l, pole)
  {
    if |laps| == 0 then []
    else
      var l := laps[0];
      var rest := Plotted(laps[1..], pole);
      assert laps == [l] + laps[1..];
      if Drawn(l, pole) then [RowOf(l, pole)] + rest else rest
  }

  /** The filters keep the relative order, so the drawn rows stay ordered. */
  lemma {:induction false} PlottedSorted(laps: seq<FastestLap>, pole: real)
    requires SortedBy(laps, LapTimeKey)
    ensures SortedBy(Plotted(laps, pole), DeltaKey)
  {
    if |laps| > 0 {
      var l := laps[0];
      var rest := Plotted(laps[1..], pole);
      PlottedSorted(laps[1..], pole);
      if Drawn(l, pole) {
        forall d | d in rest ensures l.lapTime - pole <= d.delta {
          var m :| m in laps[1..] && Drawn(m, pole) && d == RowOf(m, pole);
          var k :| 0 <= k < |laps[1..]| && laps[1..][k] == m;
          assert laps[k + 1] == m;
        }
        assert Plotted(laps, pole) == [RowOf(l, pole)] + rest;
      }
    }
  }

  /** The drawn rows are one row per drawn lap, in the order of the laps. */
  lemma {:induction false} PlottedFilters(laps: seq<FastestLap>, pole: real)
    ensures |Plotted(laps, pole)| == |Filter(laps, DrawnAt(pole))|
    ensures forall i :: 0 <= i < |Plotted(laps, pole)| ==>
      && Filter(laps, DrawnAt(pole))[i].team.Some?
      && Plotted(laps, pole)[i] == RowOf(Filter(laps, DrawnAt(pole))[i], pole)
  {
    if |laps| > 0 {
      PlottedFilters(laps[1..], pole);
    }
  }

  lemma {:induction false} PlottedAppend(a: seq<FastestLap>, b: seq<FastestLap>, pole: real)
    ensures Plotted(a + b, pole) == Plotted(a, pole) + Plotted(b, pole)
  {
    if |a| == 0 {
      assert a + b == b;
    } else {
      assert (a + b)[1..] == a[1..] + b;
      assert (a + b)[0] == a[0];
      PlottedAppend(a[1..], b, pole);
    }
  }

  lemma PlottedSplit(b: seq<FastestLap>, k: nat, pole: real)
    requires k < |b|
    ensures multiset(Plotted(b, pole)) == multiset(Plotted(b[..k] + b[k + 1..], pole)) + multiset(Plotted([b[k]], pole))
  {
    assert b == b[..k] + [b[k]] + b[k + 1..];
    PlottedAppend(b[..k] + [b[k]], b[k + 1..], pole);
    PlottedAppend(b[..k], [b[k]], pole);
    PlottedAppend(b[..k], b[k + 1..], pole);
  }

  /** Reordering the laps reorders the drawn rows and changes nothing else. */
  lemma {:induction false} PlottedPermutes(a: seq<FastestLap>, b: seq<FastestLap>, pole: real)
    requires multiset(a) == multiset(b)
    ensures multiset(Plotted(a, pole)) == multiset(Plotted(b, pole))
  {
    if |a| == 0 {
      assert |b| == |multiset(b)| == 0;
    } else {
      assert a[0] in multiset(b);
      var k :| 0 <= k < |b| && b[k] == a[0];
      var rest := b[..k] + b[k + 1..];
      RemoveMatching(a, b, k);
      PlottedPermutes(a[1..], rest, pole);
      PlottedSplit(a, 0, pole);
      assert a[..0] + a[1..] == a[1..];
      PlottedSplit(b, k, pole);
    }
  }

  /** The qualifying chart: deltas to pole of the drawn laps, pole first. */
  function QualifyingGaps(laps: seq<FastestLap>): (r: Result<seq<Delta>>)
    ensures r.Err? <==> |laps| == 0
    ensures r.Err? ==> r.error == NoLaps
    ensures r.Ok? ==> SortedBy(r.value, DeltaKey)
    ensures r.Ok? ==> forall d :: d in r.value ==> 0.0 <= d.delta < Cutoff
    ensures r.Ok? ==> forall d :: d in r.value <==>
      exists l :: l in laps && Drawn(l, PoleTime(laps)) && d == RowOf(l, PoleTime(laps))
    ensures r.Ok? ==> multiset(r.value) == multiset(Plotted(laps, PoleTime(laps)))
    ensures r.Ok? ==> |r.value| == |Filter(laps, DrawnAt(PoleTime(laps)))|
  {
    if |laps| == 0 then Err(NoLaps)
    else
      var sorted := SortBy(laps, LapTimeKey);
      var pole := sorted[0].lapTime;
      PoleIsFirst(laps, sorted);
      PlottedSorted(sorted, pole);
      DrawnFromAllLaps(laps, sorted, pole);
      assert forall l :: l in sorted <==> l in laps by {
        forall l ensures l in sorted <==> l in laps {
          assert l in sorted <==> l in multiset(sorted);
        }
      }
      Ok(Plotted(sorted, pole))
  }

  lemma DrawnFromAllLaps(laps: seq<FastestLap>, sorted: seq<FastestLap>, pole: real)
    requires multiset(sorted) == multiset(laps)
    ensures multiset(Plotted(sorted, pole)) == multiset(Plotted(laps, pole))
    ensures |Plotted(sorted, pole)| == |Filter(laps, DrawnAt(pole))|
  {
    PlottedPermutes(sorted, laps, pole);
    PlottedFilters(laps, pole);
    assert |Plotted(sorted, pole)| == |multiset(Plotted(sorted, pole))|;
  }

  lemma PoleIsFirst(laps: seq<FastestLap>, sorted: seq<FastestLap>)
    requires |laps| > 0 && |sorted| == |laps|
    requires multiset(sorted) == multiset(laps) && SortedBy(sorted, LapTimeKey)
    ensures sorted[0].lapTime == PoleTime(laps)
  {
    var k :| 0 <= k < |laps| && laps[k].lapTime == PoleTime(laps);
    assert laps[k] in multiset(sorted);
    assert sorted[0] in multiset(laps);
  }

  /** The pole lap is always drawn, at the top with delta 0, unless its
      team is missing. */
  lemma PoleLapDrawn(laps: seq<FastestLap>, l: FastestLap)
    requires l in laps && l.lapTime == PoleTime(laps) && l.team.Some?
    ensures QualifyingGaps(laps).Ok?
    ensures |QualifyingGaps(laps).value| > 0
    ensures QualifyingGaps(laps).value[0].delta == 0.0
  {
    var pole := PoleTime(laps);
    var q := QualifyingGaps(laps);
    var row := RowOf(l, pole);
    assert q.Ok? && row in q.value by {
      assert l in laps && Drawn(l, pole) && row == RowOf(l, pole);
    }
    ZeroDeltaFirst(q.value, row);
  }

  lemma ZeroDeltaFirst(r: seq<Delta>, row: Delta)
    requires row in r && row.delta == 0.0
    requires SortedBy(r, DeltaKey)
    requires forall d :: d in r ==> 0.0 <= d.delta
    ensures r[0].delta == 0.0
  {
    var k :| 0 <= k < |r| && r[k] == row;
    assert DeltaKey(r[0]) <= DeltaKey(r[k]);
  }
}

=== FILE: results.dfy ===
/** Failure-carrying values shared by every part of the model.
    Each `Failure` names an exception the analysis code would raise
    (an empty `max`, an `iloc` past the end, ...). */
module Results {

  datatype Option<+T> = None | Some(value: T)

  datatype Failure =
    | EmptyTelemetry          // max() over a telemetry table with no rows
    | ZeroMinisectorLength    // every sample sits at distance 0, so the minisector length is 0
    | TargetSpeedNeverReached // no sample at or above the target speed: iloc[0] on an empty selection
    | TooFewSamplesBeforeTarget // fewer than two rows survive the launch filter: iloc[-2] fails
    | NoSampleBelowTarget     // no sample below the target speed: iloc[-1] on an empty selection
    | FlatSpeedAtCrossing     // the two bracketing samples have the same speed: the interpolation has no value
    | NoDrivers               // the sorted launch-time table is empty: list(...)[0] fails
    | NoLaps                  // no fastest lap to pick the pole lap from

  datatype Result<+T> = Ok(value: T) | Err(error: Failure)
}

=== FILE: seqs.dfy ===
/** Small sequence utilities: an order-preserving filter, an elementwise
    map, and their algebra. */
module Seqs {

  /** The elements of `s` that satisfy `p`, in their original order. */
  function Filter<T(!new)>(s: seq<T>, p: T -> bool): (r: seq<T>)
    ensures |r| <= |s|
    ensures forall x :: x in r <==> x in s && p(x)
  {
    if |s| == 0 then []
    else if p(s[0]) then [s[0]] + Filter(s[1..], p)
    else Filter(s[1..], p)
  }

  lemma {:induction false} FilterAppend<T(!new)>(a: seq<T>, b: seq<T>, p: T -> bool)
    ensures Filter(a + b, p) == Filter(a, p) + Filter(b, p)
  {
    if |a| == 0 {
      assert a + b == b;
    } else {
      assert (a + b)[1..] == a[1..] + b;
      FilterAppend(a[1..], b, p);
    }
  }

  /** Filtering with a predicate no element satisfies leaves nothing. */
  lemma {:induction false} FilterNone<T(!new)>(s: seq<T>, p: T -> bool)
    requires forall i :: 0 <= i < |s| ==> !p(s[i])
    ensures Filter(s, p) == []
  {
    if |s| > 0 {
      FilterNone(s[1..], p);
    }
  }

  /** When `s[k]` is the last element that satisfies `p`, it is the last
      element the filter keeps. */
  lemma {:induction false} FilterLast<T(!new)>(s: seq<T>, p: T -> bool, k: nat)
    requires k < |s| && p(s[k])
    requires forall m :: k < m < |s| ==> !p(s[m])
    ensures Filter(s, p) == Filter(s[..k], p) + [s[k]]
  {
    assert s == s[..k] + [s[k]] + s[k + 1..];
    FilterAppend(s[..k] + [s[k]], s[k + 1..], p);
    FilterAppend(s[..k], [s[k]], p);
    assert Filter([s[k]], p) == [s[k]] by {
      assert [s[k]][1..] == [];
    }
    var later := s[k + 1..];
    forall i | 0 <= i < |later| ensures !p(later[i]) {
      assert later[i] == s[k + 1 + i];
    }
    FilterNone(later, p);
  }

  /** `f` applied to every element of `s`. */
  function Map<T, U>(s: seq<T>, f: T -> U): (r: seq<U>)
    ensures |r| == |s|
    ensures forall i :: 0 <= i < |s| ==> r[i] == f(s[i])
  {
    seq(|s|, i requires 0 <= i < |s| => f(s[i]))
  }

  /** Dropping the element at `k` removes one occurrence of it. */
  lemma RemoveAt<T>(b: seq<T>, k: nat)
    requires k < |b|
    ensures multiset(b[..k] + b[k + 1..]) == multiset(b) - multiset{b[k]}
  {
    assert b == b[..k] + [b[k]] + b[k + 1..];
  }

  /** The images of `b` are those of `b` without its `k`-th element, plus
      the image of that element. */
  lemma MapSplit<T, U>(b: seq<T>, k: nat, f: T -> U)
    requires k < |b|
    ensures multiset(Map(b, f)) == multiset(Map(b[..k] + b[k + 1..], f)) + multiset{f(b[k])}
  {
    var mb := Map(b, f);
    assert Map(b[..k] + b[k + 1..], f) == mb[..k] + mb[k + 1..];
    assert mb == mb[..k] + [f(b[k])] + mb[k + 1..];
  }

  lemma MapCons<T, U>(a: seq<T>, f: T -> U)
    requires |a| > 0
    ensures multiset(Map(a, f)) == multiset(Map(a[1..], f)) + multiset{f(a[0])}
  {
    assert Map(a, f) == [f(a[0])] + Map(a[1..], f);
  }

  lemma RemoveMatching<T>(a: seq<T>, b: seq<T>, k: nat)
    requires multiset(a) == multiset(b)
    requires 0 < |a| && k < |b| && b[k] == a[0]
    ensures multiset(a[1..]) == multiset(b[..k] + b[k + 1..])
  {
    RemoveAt(b, k);
    RemoveAt(a, 0);
    assert a[..0] + a[1..] == a[1..];
  }

  /** Mapping two rearrangements of the same elements gives two
      rearrangements of the same images. */
  lemma {:induction false} MapPermutes<T, U>(a: seq<T>, b: seq<T>, f: T -> U)
    requires multiset(a) == multiset(b)
    ensures multiset(Map(a, f)) == multiset(Map(b, f))
  {
    if |a| == 0 {
      assert |b| == |multiset(b)| == 0;
    } else {
      assert a[0] in multiset(b);
      var k :| 0 <= k < |b| && b[k] == a[0];
      var rest := b[..k] + b[k + 1..];
      RemoveMatching(a, b, k);
      MapPermutes(a[1..], rest, f);
      MapCons(a, f);
      MapSplit(b, k, f);
      calc {
        multiset(Map(a, f));
        multiset(Map(a[1..], f)) + multiset{f(a[0])};
        multiset(Map(rest, f)) + multiset{f(b[k])};
        multiset(Map(b, f));
      }
    }
  }
}

=== FILE: sorting.dfy ===
/** A stable insertion sort on a real-valued key.

    Python's `sorted` is stable, so for the rankings built with it the model
    promises stability too; pandas `sort_values` (quicksort) promises only an
    ordered permutation, and the same function is one admissible outcome. */
module Sorting {

  /** `s` is ordered by non-decreasing `key`. */
  predicate SortedBy<T>(s: seq<T>, key: T -> real)
  {
    forall i, j :: 0 <= i < j < |s| ==> key(s[i]) <= key(s[j])
  }

  /** The elements of `s` whose key is exactly `k`, in order. */
  function WithKey<T>(s: seq<T>, key: T -> real, k: real): seq<T>
  {
    if |s| == 0 then []
    else if key(s[0]) == k then [s[0]] + WithKey(s[1..], key, k)
    else WithKey(s[1..], key, k)
  }

  /** Place `x` in front of the first element whose key is not smaller. */
  function Insert<T>(x: T, s: seq<T>, key: T -> real): (r: seq<T>)
    requires SortedBy(s, key)
    ensures |r| == |s| + 1
    ensures multiset(r) == multiset(s) + multiset{x}
    ensures SortedBy(r, key)
    ensures r[0] == x || (|s| > 0 && r[0] == s[0])
  {
    if |s| == 0 || key(x) <= key(s[0]) then [x] + s
    else
      var rest := Insert(x, s[1..], key);
      assert s == [s[0]] + s[1..];
      InsertAfterHead(x, s, key, rest);
      [s[0]] + rest
  }

  /** The step `Insert` needs: every element of `rest` has a key no
      smaller than that of the head of `s`. */
  lemma InsertAfterHead<T>(x: T, s: seq<T>, key: T -> real, rest: seq<T>)
    requires SortedBy(s, key) && |s| > 0 && key(s[0]) < key(x)
    requires multiset(rest) == multiset(s[1..]) + multiset{x}
    requires SortedBy(rest, key)
    ensures SortedBy([s[0]] + rest, key)
  {
    forall j | 0 <= j < |rest| ensures key(s[0]) <= key(rest[j]) {
      var y := rest[j];
      assert y in multiset(rest);
      if y != x {
        assert y in multiset(s[1..]);
        var k :| 0 <= k < |s[1..]| && s[1..][k] == y;
        assert s[k + 1] == y;
      }
    }
  }

  /** Insertion sort: `SortBy(s, key)` is `s` reordered by non-decreasing key. */
  function SortBy<T>(s: seq<T>, key: T -> real): (r: seq<T>)
    ensures |r| == |s|
    ensures multiset(r) == multiset(s)
    ensures SortedBy(r, key)
  {
    if |s| == 0 then []
    else
      assert s == [s[0]] + s[1..];
      Insert(s[0], SortBy(s[1..], key), key)
  }

  /** Inserting `x` puts it before every element with the same key. */
  lemma {:induction false} InsertWithKey<T>(x: T, s: seq<T>, key: T -> real, k: real)
    requires SortedBy(s, key)
    ensures WithKey(Insert(x, s, key), key, k)
         == (if key(x) == k then [x] + WithKey(s, key, k) else WithKey(s, key, k))
  {
    if |s| == 0 || key(x) <= key(s[0]) {
      assert ([x] + s)[1..] == s;
    } else {
      var rest := Insert(x, s[1..], key);
      assert ([s[0]] + rest)[1..] == rest;
      InsertWithKey(x, s[1..], key, k);
    }
  }

  /** Stability: elements with equal keys keep their relative order. */
  lemma {:induction false} SortByStable<T>(s: seq<T>, key: T -> real, k: real)
    ensures WithKey(SortBy(s, key), key, k) == WithKey(s, key, k)
  {
    if |s| > 0 {
      SortByStable(s[1..], key, k);
      InsertWithKey(s[0], SortBy(s[1..], key), key, k);
    }
  }
}

=== FILE: tyre_strategies.dfy ===
/** Tyre-strategy bars (`tyre_strategies`, `tyre_strategies_wall`).

    The laps are grouped per driver, stint and compound and counted; for
    each driver the stints are then drawn as horizontal bars laid end to
    end, each starting where the previous one ended. */
module TyreStrategies {
  import opened Seqs

  /** One row of the grouped stint table: the number of laps a driver
      covered in one stint on one compound (`StintLength`). */
  datatype StintRow = StintRow(driver: string, stint: int, compound: string, length: nat)

  /** One horizontal bar: it starts at lap `left` and is `width` laps long. */
  datatype Bar = Bar(compound: string, left: nat, width: nat)

  /** The number of laps covered by the given stints. */
  function TotalLaps(stints: seq<StintRow>): (n: nat)
    ensures forall k :: 0 <= k < |stints| ==> stints[k].length <= n
  {
    if |stints| == 0 then 0
    else
      var init := stints[..|stints| - 1];
      assert forall k :: 0 <= k < |init| ==> init[k] == stints[k];
      TotalLaps(init) + stints[|stints| - 1].length
  }

  /** The laps of two runs of stints add up. */
  lemma {:induction false} TotalLapsAppend(a: seq<StintRow>, b: seq<StintRow>)
    ensures TotalLaps(a + b) == TotalLaps(a) + TotalLaps(b)
  {
    if |b| > 0 {
      assert (a + b)[..|a + b| - 1] == a + b[..|b| - 1];
      TotalLapsAppend(a, b[..|b| - 1]);
    } else {
      assert a + b == a;
    }
  }

  /** `bars` draws `stints` end to end: one bar per stint, as wide as the
      stint is long, starting after all earlier stints of the driver. */
  predicate LaidOut(stints: seq<StintRow>, bars: seq<Bar>)
  {
    && |bars| == |stints|
    && (forall k :: 0 <= k < |bars| ==> bars[k] == Bar(stints[k].compound, TotalLaps(stints[..k]), stints[k].length))
  }

  /** The inner loop: `previous_stint_end` accumulates the stint lengths. */
  method StintBars(stints: seq<StintRow>) returns (bars: seq<Bar>)
    ensures LaidOut(stints, bars)
  {
    bars := [];
    var previousStintEnd: nat := 0;
    var i := 0;
    while i < |stints|
      invariant 0 <= i <= |stints|
      invariant previousStintEnd == TotalLaps(stints[..i])
      invariant |bars| == i
      invariant forall k :: 0 <= k < i ==> bars[k] == Bar(stints[k].compound, TotalLaps(stints[..k]), stints[k].length)
    {
      assert stints[..i + 1][..i] == stints[..i];
      bars := bars + [Bar(stints[i].compound, previousStintEnd, stints[i].length)];
      previousStintEnd := previousStintEnd + stints[i].length;
      i := i + 1;
    }
  }

  /** Consecutive bars touch, the first starts at lap 0 and the last ends at
      the driver's total number of laps. */
  lemma BarsAreContiguous(stints: seq<StintRow>, bars: seq<Bar>)
    requires LaidOut(stints, bars)
    ensures forall k :: 0 < k < |bars| ==> bars[k].left == bars[k - 1].left + bars[k - 1].width
    ensures |bars| > 0 ==> bars[0].left == 0
    ensures |bars| > 0 ==> bars[|bars| - 1].left + bars[|bars| - 1].width == TotalLaps(stints)
  {
    forall k | 0 < k < |bars| ensures bars[k].left == bars[k - 1].left + bars[k - 1].width {
      assert stints[..k][..k - 1] == stints[..k - 1];
    }
    if |bars| > 0 {
      assert stints[..|stints|] == stints;
      assert stints[..|stints|][..|stints| - 1] == stints[..|stints| - 1];
    }
  }

  function OfDriver(driver: string): StintRow -> bool
  {
    (row: StintRow) => row.driver == driver
  }

  /** The whole chart: for each driver in session order, the bars of the
      rows of the stint table that belong to that driver. */
  method TyreStrategy(drivers: seq<string>, table: seq<StintRow>) returns (chart: seq<seq<Bar>>)
    ensures |chart| == |drivers|
    ensures forall i :: 0 <= i < |drivers| ==> LaidOut(Filter(table, OfDriver(drivers[i])), chart[i])
  {
    chart := [];
    var i := 0;
    while i < |drivers|
      invariant 0 <= i <= |drivers|
      invariant |chart| == i
      invariant forall j :: 0 <= j < i ==> LaidOut(Filter(table, OfDriver(drivers[j])), chart[j])
    {
      var bars := StintBars(Filter(table, OfDriver(drivers[i])));
      chart := chart + [bars];
      i := i + 1;
    }
  }
}
